=== FILE: README.md ===
# dip-c `color`: a Dafny model

`dip-c color` reads a 3D genome structure (a list of particles, each on one
homolog at one reference locus) and writes a colour for each particle the
chosen scheme colours, as lines `homolog <TAB> locus <TAB> colour`. Particles
the scheme skips get no line. Exactly one colour scheme is chosen by a
command-line option:

- `-c` colours from a locus-colour table.
- `-n` colours by the chromosome's line number in a list.
- `-l` colours by locus divided by chromosome length.
- `-L` colours by arm locus divided by arm length.
- `-h` colours by the distance to the homologous locus.
- `-i` colours by the fraction of intra-homolog neighbours within a radius.
- `-I` colours by the count of intra-homolog neighbours within a radius.
- `-d` colours by homolog diversity within a radius.
- `-r` colours by homolog richness within a radius.
- `-C` colours by the distance to the centre of mass.

`-S` caps the locus separation of the neighbours that count as intra-homolog.
`-s` replaces the colour map by a smoothed one: each particle that has at least
one coloured particle within a second, smoothing radius gets the mean of those
colours. A particle with no coloured neighbour drops out, and a particle the
first pass skipped can gain a colour.

This project models the core of `color.py`:

- the four neighbourhood statistics and `smooth_color`, in `neighbour_stats.dfy`;
- the option loop and its two validation checks, in `options.dfy`;
- the `-n` rank table and the `-l`/`-L` fractions, in `annotations.dfy`;
- the colouring pass, the smoothing pass and the sorted output, in `coloring.dfy` and `output.dfy`.

Particles, keys and numbers are in `particles.dfy` and `numbers.dfy`. `Option`
and `Result` are in `wrappers.dfy`.

Behaviour worth knowing, all modelled as the code has it:

- `color.py` is Python 2 code, so dividing an int by an int floors. A colour
  is therefore `Int` or `Float` (`Numbers.Number`). Smoothing the int-valued
  schemes (`-n`, `-I`, `-r`) floors the mean.
- The `-I` count starts at -1 to exclude the particle itself. `-S` is refused
  with `-I`, so no cap applies there. When the particle is in its own
  neighbour list, the count is at least 0, and a particle whose only neighbour
  is itself gets 0. The count is -1 only for a list holding no particle on the
  particle's homolog, for example an empty list.
- In mode `i` a negative `-S` cap admits no particle, not even the particle
  itself. The fraction can then fall below 0: a list of the particle and any
  one other particle gives -1.0.
- The usage text says `-S` goes with `-i` or `-I`. The code refuses `-S`
  unless the selected scheme is `i`.
- getopt accepts `-m <file>`, and the loop counts it as a scheme. No branch of
  the colouring pass handles it, so the first particle raises
  `UnboundLocalError`. `Coloring.ModeFor` maps the letter `m` to the mode
  `Unhandled`, for which the model gives `Err(ColorUnbound)`.
- In `-l` and `-L` only a missing table key is caught. A zero chromosome or
  arm length escapes as `ZeroDivisionError` (`Err(DivisionByZero)`).
- An empty neighbour list gives an intra-homolog fraction of (-1)/(-1) = 1.0.

## Model

| member | source | states |
|---|---|---|
| NeighbourStats.FractionLoop | color.py:10-16 | after the loop, the particle counter is its start plus the list length, and the intra counter is its start plus the number of same-homolog members within the `-S` cap |
| NeighbourStats.IntraHomFraction | color.py:8-19 | `None` exactly when the list has one member; otherwise the fraction times (length - 1) equals (matches - 1), self excluded from both; an empty list gives 1.0 |
| NeighbourStats.SelfIsCounted | color.py:12-16 | when the particle is in its own list and the cap admits a zero separation, it is counted as a match |
| NeighbourStats.FractionInUnitInterval | color.py:8-19 | with self in the list, at least two members and a cap admitting self, the fraction is defined and lies in [0, 1] |
| NeighbourStats.FractionExample | color.py:8-19 | one neighbour on the same homolog and one on the other homolog give 0.5 |
| NeighbourStats.NegativeCapFractionExample | color.py:8-19 | with a cap of -1, the particle followed by any other particle gives the fraction -1.0 |
| NeighbourStats.CountLoop | color.py:23-27 | the loop adds the number of same-homolog members within the cap to its start value |
| NeighbourStats.IntraHomCount | color.py:21-28 | the count is the number of matches minus one, so it lies between -1 and length - 1 |
| NeighbourStats.CountWithSelfIsNonNegative | color.py:21-28 | with self in the list and a cap admitting self, the count lies between 0 and length - 1 |
| NeighbourStats.TallyNames | color.py:35-38 | one tally keeps the homolog names distinct and adds the tallied name to the name set |
| NeighbourStats.TallyCounts | color.py:35-38 | one tally raises the tallied name's count by one, leaves every other count unchanged, and raises the total by one |
| NeighbourStats.TallyPositive | color.py:36-38 | every count stays at least 1 after a tally |
| NeighbourStats.HistogramOf | color.py:31-38 | the count table has one entry per distinct homolog of the list; each count is that homolog's number of list members; the counts sum to `total_count` |
| NeighbourStats.HomDiversity | color.py:30-44 | an empty list has entropy 0 |
| NeighbourStats.SingleHomologHasZeroDiversity | color.py:30-44 | a non-empty list on a single homolog has entropy 0, given ln(1) = 0 |
| NeighbourStats.DiversityExample | color.py:30-44 | three members on one homolog and one on another give the table [(1a, 3), (1b, 1)] and entropy -(3/4 ln 3/4 + 1/4 ln 1/4) |
| NeighbourStats.NamesSeen | color.py:47-49 | the loop's set is exactly the set of homolog names of the list |
| NeighbourStats.HomRichness | color.py:46-50 | richness is the number of distinct homolog names in the list |
| NeighbourStats.RichnessBounds | color.py:46-50 | a non-empty list has richness between 1 and its length |
| NeighbourStats.RichnessIsHistogramSize | color.py:30-50 | richness equals the number of entries in the diversity count table |
| NeighbourStats.SmoothLoop | color.py:57-62 | the loop counts exactly the neighbours whose key has a colour and adds up their colours; the sum stays an int while every added colour is an int |
| NeighbourStats.SmoothColor | color.py:52-66 | `None` exactly when no neighbour is coloured; otherwise the mean of the coloured neighbours' colours, floored and int exactly when they are all ints |
| NeighbourStats.SmoothColorWithinRange | color.py:52-66 | a smoothed colour lies between the smallest and the largest colour it averages |
| NeighbourStats.SmoothColorOfLoneColoredSelf | color.py:52-66 | a particle that is its own only coloured neighbour keeps its colour |
| Numbers.Add | color.py:62 | `+` adds values, and the result is an int exactly when both operands are |
| Numbers.DivCount | color.py:66 | dividing by a positive count gives the exact quotient for a float and the floored quotient for an int |
| Options.ScanMeaning | color.py:104-118 | after the loop, the counter is the number of scheme flags, the mode is the last scheme flag, the file is the last non-empty scheme argument, and each numeric argument is the last one given for its flag |
| Options.NonSchemeFlagsDoNotCount | color.py:105-118 | `-s` and `-S`, wherever they appear, change neither the scheme count nor the selected scheme |
| Options.Validate | color.py:85-124 | no input file gives the usage error first; then `-S` without scheme `i` is refused; then anything but exactly one scheme is refused; otherwise the configuration carries the scanned values |
| Options.SeparationRefusedWithCount | color.py:119-121 | `-S` together with `-I` is refused |
| Options.SeparationCheckedBeforeCount | color.py:119-124 | with `-S` and two schemes the last of which is not `i`, the `-S` error is reported; with `i` last, the count error is |
| Annotations.RankLoop | color.py:148-152 | the loop binds every listed name, each to the counter value at its last occurrence, and leaves unlisted names unchanged |
| Annotations.ChromosomeRanks | color.py:146-152 | the rank table's names are exactly the listed names, each mapped to the 1-based line of its last occurrence |
| Annotations.RanksInRange | color.py:146-152 | every rank lies between 1 and the number of lines |
| Annotations.LocusFraction | color.py:194-198 | raises exactly on a zero length; otherwise the value times the length is the locus, so the value is locus / length; a locus within [0, length] gives a value in [0, 1]; the chromosome end gives 1 |
| Annotations.ArmFraction | color.py:199-208 | raises exactly when the arm the locus lies on has length 0; otherwise the value times that arm's length (length - centromere past the centromere, centromere otherwise) is the locus's distance from the centromere; with the centromere strictly inside the chromosome, a locus within it gives a value in [0, 1]; the centromere gives 0 |
| Annotations.ArmEnds | color.py:199-208 | both chromosome ends give 1, and a p-arm locus does not depend on the chromosome length |
| Coloring.FractionColor | color.py:209-212 | in mode `i` the particle is skipped exactly when its query returned one particle; otherwise its colour is the float fraction whose product with (length - 1) is (matches - 1) |
| Coloring.ColorOf | color.py:183-225 | a particle is skipped exactly on a missed table key, an undefined fraction or a missing homolog; only modes `m`, `l` and `L` can raise, and `m` always does; `-I` and `-r` give the count and the richness as ints |
| Coloring.ModeFor | color.py:183-225 | each scheme letter getopt accepts selects the mode whose letter it is (`Letter` is its inverse), the other letters select none; `m` alone selects the mode no branch handles; `c`, `n`, `l` and `L` read their own tables |
| Coloring.SchemeMRaises | color.py:104-124 | the option list `-m <file>` with an input file passes validation with mode `m`, and the colouring pass then raises on any non-empty structure (lines 178-227) |
| Coloring.RaisesSnoc | color.py:178-227 | the pass over a longer list raises exactly when the shorter one does or the new particle does |
| Coloring.WrittenSnoc | color.py:178-227 | a key is written over a longer list exactly when it was written over the shorter one or is the new particle's |
| Coloring.WrittenKeysAreParticleKeys | color.py:227 | a written key belongs to a particle of the structure |
| Coloring.ColorPass | color.py:176-227 | the pass raises exactly when some particle raises; otherwise its keys are exactly those of the coloured particles |
| Coloring.ColorPassStep | color.py:178-227 | a successful pass is the pass over all but the last particle, updated with the last particle's colour if it has one |
| Coloring.ColorPassValueAt | color.py:227 | with unique keys, a coloured particle's entry holds its own colour |
| Coloring.ColorPassValues | color.py:227 | with unique keys, every coloured particle's entry holds its own colour |
| Coloring.AnnotationMissWritesNothing | color.py:184-208 | with unique keys, a particle whose table lookup misses gets no entry |
| Coloring.UndefinedFractionWritesNothing | color.py:209-212 | mode `i` never raises, and with unique keys a particle whose query returned one particle gets no entry |
| Coloring.CountModeColorsEveryParticle | color.py:213-214 | mode `I` never raises and colours every particle of the structure |
| Coloring.SmoothSnoc | color.py:234-240 | a key is smoothed over a longer list exactly when it was over the shorter one or is the new particle's with a smoothed colour |
| Coloring.SmoothPass | color.py:229-241 | the smoothed map's keys are exactly those of the particles with a smoothed colour, all keys of the structure |
| Coloring.SmoothPassStep | color.py:234-240 | the pass is the pass over all but the last particle, updated with the last particle's smoothed colour if it has one |
| Coloring.SmoothPassValueAt | color.py:238-240 | with unique keys, a smoothed particle's entry holds its smoothed colour |
| Coloring.SmoothPassValues | color.py:238-240 | with unique keys, every smoothed particle's entry holds its smoothed colour |
| Coloring.FinalColors | color.py:229-241 | the printed map raises exactly when the colouring pass does, and holds only keys of the structure |
| Coloring.Color | color.py:176-246 | the command raises exactly when a particle raises or the structure is empty, in which case the summary message at line 244 divides by zero; otherwise it prints each key of the final map once, with its colour, in ascending order |
| Output.LeastKeyExists | color.py:245 | every non-empty key set has a least key in Python's tuple order |
| Output.SortedLines | color.py:245-246 | one line per key of the colour map, with that key's colour, in strictly ascending (homolog, locus) order |

## Left out

- The radius query around a particle, the homolog lookup and the centre of mass are parameters (`Coloring.Env`). `classes.py` is not part of this model, and neither are its particle store, spatial index and `homologous_hom_name`.
- The model does not constrain which particles a query returns. Properties that rely on the particle being in its own neighbourhood take that as a precondition.
- Positions, Euclidean distances, `math.sqrt` and `numpy` are left out. The `-h` and `-C` colours are supplied distances.
- `math.log` is a parameter. Its only property used is ln(1) = 0.
- Floating-point rounding is not modelled: floats are exact reals.
- File reading and line parsing are left out: the 3DG file, the `-c`, `-l` and `-L` tables, `strip()`, `split`, and `int()`/`float()` conversion with its `ValueError`. The `-c`, `-l` and `-L` tables arrive as maps. The `-n` list arrives as its stripped lines.
- Options.Validate: numeric option arguments stay as text in `Options.Config`, and their conversion is not modelled. In the source, `float(a)` and `int(a)` at lines 109, 111 and 113 run inside the option loop, before either check, and raise `ValueError` on a malformed argument. For example, `-S x -d 3` raises there, while `Options.Validate` returns `SeparationWithoutFraction`.
- getopt itself is left out: the unknown-option error (lines 80-84) and the usage text. The model starts from the `(flag, arg)` pairs getopt returns.
- `sort_g3d_particles` is left out. The passes take the particles in the order given.
- Progress messages on stderr and the `str()` formatting of output lines are left out. The output is a sequence of (homolog, locus, colour) lines.
- NeighbourStats.HomDiversity: its contract covers only the empty list. The value for a general list is stated through `HistogramOf` and the two lemmas after it, because a bound on entropy needs properties of the logarithm that are not modelled.
- Coloring.ColorOf: the exact colour is stated only for `-I` and `-r`. The other modes return their table entry, the `-d` diversity (`NeighbourStats.HomDiversity`), the `-i` fraction or a supplied distance directly. The `-l` and `-L` formulas are stated by `Annotations.LocusFraction` and `Annotations.ArmFraction`, and the `-i` fraction by `Coloring.FractionColor`.

=== FILE: annotations.dfy ===
/** The annotation-based colours: the chromosome rank table built from a
    chromosome list, and the two positional fractions. */
module Annotations {
  import opened Wrappers
  import opened Numbers

  /** An exception the colouring pass lets escape (only a missing table key is
      caught there). */
  datatype Crash = DivisionByZero | ColorUnbound

  /** Line `i` holds the last occurrence of its name. */
  predicate IsLastOccurrence(lines: seq<string>, i: int)
    requires 0 <= i < |lines|
  {
    forall j :: i < j < |lines| ==> lines[j] != lines[i]
  }

  function LineSet(lines: seq<string>): set<string>
  {
    set i | 0 <= i < |lines| :: lines[i]
  }

  lemma LineSetCons(lines: seq<string>)
    requires |lines| > 0
    ensures LineSet(lines) == {lines[0]} + LineSet(lines[1..])
  {
    var rest := lines[1..];
    forall k | k in LineSet(lines) ensures k in {lines[0]} + LineSet(rest) {
      var i :| 0 <= i < |lines| && lines[i] == k;
      if i > 0 {
        assert rest[i - 1] == k;
      }
    }
    forall k | k in LineSet(rest) ensures k in LineSet(lines) {
      var i :| 0 <= i < |rest| && rest[i] == k;
      assert lines[i + 1] == k;
    }
  }

  lemma LastOccurrenceTail(lines: seq<string>)
    requires |lines| > 0
    ensures forall i :: 1 <= i < |lines| && IsLastOccurrence(lines, i) ==> IsLastOccurrence(lines[1..], i - 1)
    ensures IsLastOccurrence(lines, 0) ==> lines[0] !in lines[1..]
  {
    var rest := lines[1..];
    forall i | 1 <= i < |lines| && IsLastOccurrence(lines, i) ensures IsLastOccurrence(rest, i - 1) {
      forall j | i - 1 < j < |rest| ensures rest[j] != rest[i - 1] {
        assert rest[j] == lines[j + 1];
      }
    }
    if IsLastOccurrence(lines, 0) {
      forall j | 0 <= j < |rest| ensures rest[j] != lines[0] {
        assert rest[j] == lines[j + 1];
      }
    }
  }

  /** The table-building loop of `-n`: the counter goes up by one per line and
      the line's name is (re)bound to it. */
  function RankLoop(lines: seq<string>, counter: int, ranks: map<string, int>): (r: map<string, int>)
    ensures r.Keys == ranks.Keys + LineSet(lines)
    ensures forall i :: 0 <= i < |lines| && IsLastOccurrence(lines, i) ==> r[lines[i]] == counter + i + 1
    ensures forall k :: k in ranks && k !in lines ==> r[k] == ranks[k]
    decreases |lines|
  {
    if |lines| == 0 then ranks
    else
      LineSetCons(lines);
      LastOccurrenceTail(lines);
      RankLoop(lines[1..], counter + 1, ranks[lines[0] := counter + 1])
  }

  /** The `-n` table: every listed chromosome maps to its 1-based line number,
      a name listed twice keeping its later line. */
  function ChromosomeRanks(lines: seq<string>): (r: map<string, int>)
    ensures r.Keys == LineSet(lines)
    ensures forall i :: 0 <= i < |lines| && IsLastOccurrence(lines, i) ==> r[lines[i]] == i + 1
  {
    RankLoop(lines, 0, map[])
  }

  lemma {:induction false} LastOccurrenceExists(lines: seq<string>, k: string)
    requires k in lines
    ensures exists i :: 0 <= i < |lines| && lines[i] == k && IsLastOccurrence(lines, i)
  {
    var n := |lines| - 1;
    if lines[n] == k {
      assert IsLastOccurrence(lines, n);
    } else {
      var init := lines[..n];
      assert k in init by {
        var i :| 0 <= i < |lines| && lines[i] == k;
        assert init[i] == k;
      }
      LastOccurrenceExists(init, k);
      var i :| 0 <= i < |init| && init[i] == k && IsLastOccurrence(init, i);
      assert lines[i] == k;
      forall j | i < j < |lines| ensures lines[j] != lines[i] {
        if j < n {
          assert lines[j] == init[j];
        }
      }
    }
  }

  /** Every rank lies between 1 and the number of lines. */
  lemma RanksInRange(lines: seq<string>)
    ensures forall k :: k in ChromosomeRanks(lines) ==> 1 <= ChromosomeRanks(lines)[k] <= |lines|
  {
    var r := ChromosomeRanks(lines);
    forall k | k in r ensures 1 <= r[k] <= |lines| {
      assert k in lines;
      LastOccurrenceExists(lines, k);
    }
  }

  /** `-l`: the locus divided by the chromosome length. A zero length raises. */
  function LocusFraction(locus: int, length: int): (r: Result<real, Crash>)
    ensures r.Err? <==> length == 0
    ensures r.Ok? ==> r.value * length as real == locus as real
    ensures 0 <= locus <= length && length > 0 ==> 0.0 <= r.value <= 1.0
    ensures locus == length && length != 0 ==> r == Ok(1.0)
  {
    if length == 0 then Err(DivisionByZero)
    else
      DivSelf(length as real);
      if 0 <= locus <= length then
        QuotientInUnit(locus as real, length as real);
        Ok(locus as real / length as real)
      else Ok(locus as real / length as real)
  }

  lemma QuotientInUnit(a: real, b: real)
    requires 0.0 <= a <= b && b > 0.0
    ensures 0.0 <= a / b <= 1.0
  {
    assert (a / b) * b == a;
  }

  lemma DivSelf(x: real)
    requires x != 0.0
    ensures x / x == 1.0
  {
    assert (x / x) * x == 1.0 * x;
  }

  /** `-L`: the distance from the centromere divided by the length of the arm
      the locus lies on: the q arm (`length - centromere`) for loci past the
      centromere, the p arm (`centromere`) otherwise. A zero arm length raises. */
  function ArmFraction(locus: int, length: int, centromere: int): (r: Result<real, Crash>)
    ensures r.Err? <==> (locus > centromere && length == centromere) || (locus <= centromere && centromere == 0)
    ensures r.Ok? ==> r.value * (if locus > centromere then length - centromere else centromere) as real
                      == Abs(locus - centromere) as real
    ensures 0 < centromere < length && 0 <= locus <= length ==> r.Ok? && 0.0 <= r.value <= 1.0
    ensures locus == centromere && centromere != 0 ==> r == Ok(0.0)
  {
    var armLocus := locus - centromere;
    var armLength := if armLocus > 0 then length - centromere else centromere;
    if armLength == 0 then Err(DivisionByZero)
    else if 0 < centromere < length && 0 <= locus <= length then
      QuotientInUnit(Abs(armLocus) as real, armLength as real);
      Ok(Abs(armLocus) as real / armLength as real)
    else Ok(Abs(armLocus) as real / armLength as real)
  }

  /** Both chromosome ends sit at fraction 1 of their arm; the p-arm fraction
      does not consult the length. */
  lemma ArmEnds(length: int, centromere: int, other: int)
    requires 0 < centromere < length
    ensures ArmFraction(0, length, centromere) == Ok(1.0)
    ensures ArmFraction(length, length, centromere) == Ok(1.0)
    ensures forall locus :: locus <= centromere ==> ArmFraction(locus, length, centromere) == ArmFraction(locus, other, centromere)
  {
    DivSelf(centromere as real);
    DivSelf((length - centromere) as real);
  }
}

=== FILE: coloring.dfy ===
/** The two per-particle passes of the colour command, written as folds over
    the particle sequence: the colouring pass builds a sparse colour map, and
    the optional smoothing pass builds a second map from the first. */
module Coloring {
  import opened Wrappers
  import opened Numbers
  import opened Particles
  import opened NeighbourStats
  import opened Annotations
  import opened Output
  import Options

  /** The selected colour scheme with the annotation table it reads, if any. */
  datatype Mode =
    | ByLocusColor(locusColors: map<(string, int), real>)   // -c
    | ByChromosome(ranks: map<string, int>)                  // -n
    | ByLocusFraction(lengths: map<string, int>)             // -l
    | ByArmFraction(lengths: map<string, int>, centromeres: map<string, int>)  // -L
    | ByHomologDistance                                       // -h
    | ByIntraFraction                                         // -i
    | ByIntraCount                                            // -I
    | ByDiversity                                             // -d
    | ByRichness                                              // -r
    | ByCenterDistance                                        // -C
    | Unhandled                                               // -m: accepted, but no branch colours it

  /** The option letter that selects a mode. */
  function Letter(m: Mode): char
  {
    match m
    case ByLocusColor(_) => 'c'
    case ByChromosome(_) => 'n'
    case ByLocusFraction(_) => 'l'
    case ByArmFraction(_, _) => 'L'
    case ByHomologDistance => 'h'
    case ByIntraFraction => 'i'
    case ByIntraCount => 'I'
    case ByDiversity => 'd'
    case ByRichness => 'r'
    case ByCenterDistance => 'C'
    case Unhandled => 'm'
  }

  /** The scheme the passes run for the mode letter that option validation
      selected, with the annotation tables read for it. `-m` has a letter but no
      branch of its own. Letters getopt does not accept select nothing. */
  function ModeFor(flag: char, locusColors: map<(string, int), real>, ranks: map<string, int>,
                   lengths: map<string, int>, centromeres: map<string, int>): (r: Option<Mode>)
    ensures r.None? <==> flag !in "cnlmLihdrIC"
    ensures r == Some(Unhandled) <==> flag == 'm'
    ensures r.Some? ==> Letter(r.value) == flag
    ensures flag == 'c' ==> r == Some(ByLocusColor(locusColors))
    ensures flag == 'n' ==> r == Some(ByChromosome(ranks))
    ensures flag == 'l' ==> r == Some(ByLocusFraction(lengths))
    ensures flag == 'L' ==> r == Some(ByArmFraction(lengths, centromeres))
  {
    match flag
    case 'c' => Some(ByLocusColor(locusColors))
    case 'n' => Some(ByChromosome(ranks))
    case 'l' => Some(ByLocusFraction(lengths))
    case 'L' => Some(ByArmFraction(lengths, centromeres))
    case 'h' => Some(ByHomologDistance)
    case 'i' => Some(ByIntraFraction)
    case 'I' => Some(ByIntraCount)
    case 'd' => Some(ByDiversity)
    case 'r' => Some(ByRichness)
    case 'C' => Some(ByCenterDistance)
    case 'm' => Some(Unhandled)
    case _ => None
  }

  /** The collaborators the passes consult, each a pure function here:
      - `near`: the radius query around a particle's position (`-i/-I/-d/-r` radius);
      - `maxSeparation`: the `-S` cap, already converted to an int;
      - `homologDistance`: the distance to the homologous particle at the same
        locus, `None` when the structure has no such particle;
      - `centerDistance`: the distance to the structure's centre of mass;
      - `ln`: the natural logarithm. */
  datatype Env = Env(near: Particle -> seq<Particle>, maxSeparation: Option<int>,
                     homologDistance: Particle -> Option<real>,
                     centerDistance: Particle -> real, ln: real -> real)

  /** The annotation lookups of `p` that raise `KeyError`, which the pass
      catches by skipping the particle. On the p arm (`-L`, locus not past the
      centromere) the length table is not consulted. */
  predicate AnnotationMiss(mode: Mode, p: Particle)
  {
    match mode
    case ByLocusColor(locusColors) => (p.refName, p.refLocus) !in locusColors
    case ByChromosome(ranks) => p.refName !in ranks
    case ByLocusFraction(lengths) => p.refName !in lengths
    case ByArmFraction(lengths, centromeres) =>
      p.refName !in centromeres || (p.refLocus > centromeres[p.refName] && p.refName !in lengths)
    case _ => false
  }

  function AsColor(r: Result<real, Crash>): Result<Option<Number>, Crash>
  {
    match r
    case Ok(x) => Ok(Some(Float(x)))
    case Err(e) => Err(e)
  }

  /** Mode `i`: the fraction, absent when it is undefined. */
  function FractionColor(p: Particle, env: Env): (r: Result<Option<Number>, Crash>)
    ensures r.Ok? && (r.value.None? <==> |env.near(p)| == 1)
    ensures r.value.Some? ==> r.value.value.Float?
    ensures r.value.Some? ==>
              r.value.value.x * (|env.near(p)| - 1) as real == (MatchCount(p, env.near(p), env.maxSeparation) - 1) as real
  {
    var f := IntraHomFraction(p, env.near(p), env.maxSeparation);
    if f.None? then Ok(None) else Ok(Some(Float(f.value)))
  }

  /** The colour of one particle in the first pass: `Ok(None)` when the pass
      skips it, `Err` when an exception escapes. */
  function ColorOf(mode: Mode, env: Env, p: Particle): (r: Result<Option<Number>, Crash>)
    ensures r == Ok(None) <==>
              || AnnotationMiss(mode, p)
              || (mode.ByIntraFraction? && |env.near(p)| == 1)
              || (mode.ByHomologDistance? && env.homologDistance(p).None?)
    ensures r.Err? ==> mode.Unhandled? || mode.ByLocusFraction? || mode.ByArmFraction?
    ensures mode.Unhandled? ==> r == Err(ColorUnbound)
    ensures mode.ByLocusFraction? && p.refName in mode.lengths ==>
              (r.Err? <==> mode.lengths[p.refName] == 0)
    ensures mode.ByIntraCount? ==>
              r == Ok(Some(Int(MatchCount(p, env.near(p), env.maxSeparation) - 1)))
    ensures mode.ByRichness? ==> r == Ok(Some(Int(|HomNameSet(env.near(p))|)))
  {
    match mode
    case ByLocusColor(locusColors) =>
      var key := (p.refName, p.refLocus);
      if key in locusColors then Ok(Some(Float(locusColors[key]))) else Ok(None)
    case ByChromosome(ranks) =>
      if p.refName in ranks then Ok(Some(Int(ranks[p.refName]))) else Ok(None)
    case ByLocusFraction(lengths) =>
      if p.refName !in lengths then Ok(None)
      else AsColor(LocusFraction(p.refLocus, lengths[p.refName]))
    case ByArmFraction(lengths, centromeres) =>
      if p.refName !in centromeres then Ok(None)
      else if p.refLocus - centromeres[p.refName] > 0 && p.refName !in lengths then Ok(None)
      else
        // on the p arm the length is not read, so any value stands in for a missing one
        var length := if p.refName in lengths then lengths[p.refName] else 0;
        AsColor(ArmFraction(p.refLocus, length, centromeres[p.refName]))
    case ByHomologDistance =>
      var d := env.homologDistance(p);
      if d.None? then Ok(None) else Ok(Some(Float(d.value)))
    case ByIntraFraction =>
      FractionColor(p, env)
    case ByIntraCount =>
      Ok(Some(Int(IntraHomCount(p, env.near(p), env.maxSeparation))))
    case ByDiversity =>
      Ok(Some(Float(HomDiversity(env.near(p), env.ln))))
    case ByRichness =>
      Ok(Some(Int(HomRichness(env.near(p)))))
    case ByCenterDistance =>
      Ok(Some(Float(env.centerDistance(p))))
    case Unhandled =>
      Err(ColorUnbound)
  }

  /** The first pass writes a colour for `p`. */
  predicate Colors(mode: Mode, env: Env, p: Particle)
  {
    var c := ColorOf(mode, env, p);
    c.Ok? && c.value.Some?
  }

  /** Some particle of `ps` with key `k` is coloured by the first pass. */
  predicate WrittenBy(mode: Mode, env: Env, ps: seq<Particle>, k: Key)
  {
    exists i :: 0 <= i < |ps| && KeyOf(ps[i]) == k && Colors(mode, env, ps[i])
  }

  /** Some particle of `ps` makes the first pass raise. */
  predicate RaisesOn(mode: Mode, env: Env, ps: seq<Particle>)
  {
    exists i :: 0 <= i < |ps| && ColorOf(mode, env, ps[i]).Err?
  }

  lemma RaisesSnoc(mode: Mode, env: Env, ps: seq<Particle>)
    requires |ps| > 0
    ensures RaisesOn(mode, env, ps) <==>
            RaisesOn(mode, env, ps[..|ps| - 1]) || ColorOf(mode, env, ps[|ps| - 1]).Err?
  {
    var init := ps[..|ps| - 1];
    if RaisesOn(mode, env, ps) {
      var i :| 0 <= i < |ps| && ColorOf(mode, env, ps[i]).Err?;
      if i < |init| {
        assert init[i] == ps[i];
      }
    }
    if RaisesOn(mode, env, init) {
      var i :| 0 <= i < |init| && ColorOf(mode, env, init[i]).Err?;
      assert ps[i] == init[i];
    }
  }

  lemma WrittenSnoc(mode: Mode, env: Env, ps: seq<Particle>, k: Key)
    requires |ps| > 0
    ensures WrittenBy(mode, env, ps, k) <==>
            WrittenBy(mode, env, ps[..|ps| - 1], k) || (KeyOf(ps[|ps| - 1]) == k && Colors(mode, env, ps[|ps| - 1]))
  {
    var init := ps[..|ps| - 1];
    if WrittenBy(mode, env, ps, k) {
      var i :| 0 <= i < |ps| && KeyOf(ps[i]) == k && Colors(mode, env, ps[i]);
      if i < |init| {
        assert init[i] == ps[i];
      }
    }
    if WrittenBy(mode, env, init, k) {
      var i :| 0 <= i < |init| && KeyOf(init[i]) == k && Colors(mode, env, init[i]);
      assert ps[i] == init[i];
    }
  }

  lemma WrittenKeysAreParticleKeys(mode: Mode, env: Env, ps: seq<Particle>, k: Key)
    requires WrittenBy(mode, env, ps, k)
    ensures k in KeySet(ps)
  {
    var i :| 0 <= i < |ps| && KeyOf(ps[i]) == k && Colors(mode, env, ps[i]);
  }

  /** The colouring pass over the structure's particles in order. It fails
      exactly when some particle raises; otherwise its keys are exactly the keys
      of the particles it colours, all of them keys of the structure. */
  function ColorPass(mode: Mode, env: Env, ps: seq<Particle>): (r: Result<map<Key, Number>, Crash>)
    ensures r.Err? <==> RaisesOn(mode, env, ps)
    ensures r.Ok? ==> forall k :: k in r.value <==> WrittenBy(mode, env, ps, k)
    ensures r.Ok? ==> r.value.Keys <= KeySet(ps)
    decreases |ps|
  {
    if |ps| == 0 then Ok(map[])
    else
      var init, p := ps[..|ps| - 1], ps[|ps| - 1];
      var before := ColorPass(mode, env, init);
      var c := ColorOf(mode, env, p);
      RaisesSnoc(mode, env, ps);
      assert forall k :: WrittenBy(mode, env, ps, k) <==>
                         WrittenBy(mode, env, init, k) || (KeyOf(p) == k && Colors(mode, env, p)) by {
        forall k {
          WrittenSnoc(mode, env, ps, k);
        }
      }
      assert forall k :: WrittenBy(mode, env, ps, k) ==> k in KeySet(ps) by {
        forall k | WrittenBy(mode, env, ps, k) {
          WrittenKeysAreParticleKeys(mode, env, ps, k);
        }
      }
      if before.Err? then before
      else if c.Err? then Err(c.error)
      else if c.value.None? then before
      else Ok(before.value[KeyOf(p) := c.value.value])
  }

  /** One step of the colouring pass, when the whole pass succeeds. */
  lemma ColorPassStep(mode: Mode, env: Env, ps: seq<Particle>)
    requires |ps| > 0 && ColorPass(mode, env, ps).Ok?
    ensures ColorPass(mode, env, ps[..|ps| - 1]).Ok?
    ensures ColorOf(mode, env, ps[|ps| - 1]).Ok?
    ensures var before, p := ColorPass(mode, env, ps[..|ps| - 1]).value, ps[|ps| - 1];
            ColorPass(mode, env, ps).value ==
              if Colors(mode, env, p) then before[KeyOf(p) := ColorOf(mode, env, p).value.value] else before
  {
  }

  lemma {:induction false} ColorPassValueAt(mode: Mode, env: Env, ps: seq<Particle>, i: int)
    requires UniqueKeys(ps)
    requires ColorPass(mode, env, ps).Ok?
    requires 0 <= i < |ps| && Colors(mode, env, ps[i])
    ensures ColorPass(mode, env, ps).value[KeyOf(ps[i])] == ColorOf(mode, env, ps[i]).value.value
    decreases |ps|
  {
    var init := ps[..|ps| - 1];
    ColorPassStep(mode, env, ps);
    if i < |init| {
      assert init[i] == ps[i];
      UniqueKeysPrefix(ps);
      ColorPassValueAt(mode, env, init, i);
      assert KeyOf(ps[i]) != KeyOf(ps[|ps| - 1]);
    }
  }

  /** With unique particle keys, each coloured particle's entry holds its colour. */
  lemma ColorPassValues(mode: Mode, env: Env, ps: seq<Particle>)
    requires UniqueKeys(ps)
    requires ColorPass(mode, env, ps).Ok?
    ensures forall i :: 0 <= i < |ps| && Colors(mode, env, ps[i]) ==>
              ColorPass(mode, env, ps).value[KeyOf(ps[i])] == ColorOf(mode, env, ps[i]).value.value
  {
    forall i | 0 <= i < |ps| && Colors(mode, env, ps[i])
      ensures ColorPass(mode, env, ps).value[KeyOf(ps[i])] == ColorOf(mode, env, ps[i]).value.value
    {
      ColorPassValueAt(mode, env, ps, i);
    }
  }

  /** The mode letter `m` passes validation, but the colouring pass raises on any
      non-empty structure. */
  lemma {:induction false} SchemeMRaises(env: Env, ps: seq<Particle>, locusColors: map<(string, int), real>,
                      ranks: map<string, int>, lengths: map<string, int>, centromeres: map<string, int>,
                      file: string, args: seq<string>)
    requires |ps| > 0 && |args| > 0
    ensures Options.Validate([Options.Opt('m', file)], args).Ok?
    ensures Options.Validate([Options.Opt('m', file)], args).value.mode == 'm'
    ensures ColorPass(ModeFor('m', locusColors, ranks, lengths, centromeres).value, env, ps) == Err(ColorUnbound)
  {
    var opts := [Options.Opt('m', file)];
    assert opts[1..] == [] && opts[..0] == [];
    assert Options.SchemeFlags(opts) == ['m'];
    assert Options.LastArg(opts, {'S'}) == Options.LastArg(opts[..0], {'S'}) == None;
    if |ps| > 1 {
      SchemeMRaises(env, ps[..|ps| - 1], locusColors, ranks, lengths, centromeres, file, args);
    }
  }

  /** A particle whose annotation lookup misses gets no colour (keys unique). */
  lemma AnnotationMissWritesNothing(mode: Mode, env: Env, ps: seq<Particle>, i: int)
    requires UniqueKeys(ps)
    requires 0 <= i < |ps| && AnnotationMiss(mode, ps[i])
    requires ColorPass(mode, env, ps).Ok?
    ensures KeyOf(ps[i]) !in ColorPass(mode, env, ps).value
  {
  }

  /** In mode `i`, a particle whose fraction is undefined (its query returned
      one particle) gets no colour; that mode never raises. */
  lemma UndefinedFractionWritesNothing(env: Env, ps: seq<Particle>, i: int)
    requires UniqueKeys(ps)
    requires 0 <= i < |ps| && |env.near(ps[i])| == 1
    ensures ColorPass(ByIntraFraction, env, ps).Ok?
    ensures KeyOf(ps[i]) !in ColorPass(ByIntraFraction, env, ps).value
  {
  }

  /** In mode `I` no particle is skipped: every key of the structure is coloured,
      even where the count is the -1 sentinel. */
  lemma CountModeColorsEveryParticle(env: Env, ps: seq<Particle>)
    ensures ColorPass(ByIntraCount, env, ps).Ok?
    ensures ColorPass(ByIntraCount, env, ps).value.Keys == KeySet(ps)
  {
    var m := ColorPass(ByIntraCount, env, ps).value;
    forall k | k in KeySet(ps) ensures k in m {
      var i :| 0 <= i < |ps| && KeyOf(ps[i]) == k;
      assert Colors(ByIntraCount, env, ps[i]);
    }
  }

  /** Some particle of `ps` with key `k` has a smoothed colour. */
  predicate SmoothedBy(ps: seq<Particle>, near: Particle -> seq<Particle>, colors: map<Key, Number>, k: Key)
  {
    exists i :: 0 <= i < |ps| && KeyOf(ps[i]) == k && SmoothColor(ps[i], near(ps[i]), colors).Some?
  }

  lemma SmoothSnoc(ps: seq<Particle>, near: Particle -> seq<Particle>, colors: map<Key, Number>)
    requires |ps| > 0
    ensures var init, p := ps[..|ps| - 1], ps[|ps| - 1];
            forall k :: SmoothedBy(ps, near, colors, k) <==>
                          SmoothedBy(init, near, colors, k) || (KeyOf(p) == k && SmoothColor(p, near(p), colors).Some?)
  {
    var init, p := ps[..|ps| - 1], ps[|ps| - 1];
    forall k ensures SmoothedBy(ps, near, colors, k) <==>
                     SmoothedBy(init, near, colors, k) || (KeyOf(p) == k && SmoothColor(p, near(p), colors).Some?)
    {
      if SmoothedBy(ps, near, colors, k) {
        var i :| 0 <= i < |ps| && KeyOf(ps[i]) == k && SmoothColor(ps[i], near(ps[i]), colors).Some?;
        if i < |init| {
          assert init[i] == ps[i];
        }
      }
      if SmoothedBy(init, near, colors, k) {
        var i :| 0 <= i < |init| && KeyOf(init[i]) == k && SmoothColor(init[i], near(init[i]), colors).Some?;
        assert ps[i] == init[i];
      }
    }
  }

  /** The smoothing pass: each particle's smoothed colour over its smoothing
      neighbourhood, read from the complete first-pass map. Its keys are exactly
      those of the particles with a smoothed colour, all keys of the structure. */
  function SmoothPass(ps: seq<Particle>, near: Particle -> seq<Particle>, colors: map<Key, Number>): (r: map<Key, Number>)
    ensures forall k :: k in r <==> SmoothedBy(ps, near, colors, k)
    ensures r.Keys <= KeySet(ps)
    decreases |ps|
  {
    if |ps| == 0 then map[]
    else
      var init, p := ps[..|ps| - 1], ps[|ps| - 1];
      var m := SmoothPass(init, near, colors);
      var c := SmoothColor(p, near(p), colors);
      SmoothSnoc(ps, near, colors);
      assert forall k :: SmoothedBy(ps, near, colors, k) ==> k in KeySet(ps) by {
        forall k | SmoothedBy(ps, near, colors, k) ensures k in KeySet(ps) {
          var i :| 0 <= i < |ps| && KeyOf(ps[i]) == k && SmoothColor(ps[i], near(ps[i]), colors).Some?;
        }
      }
      if c.None? then m else m[KeyOf(p) := c.value]
  }

  /** One step of the smoothing pass. */
  lemma SmoothPassStep(ps: seq<Particle>, near: Particle -> seq<Particle>, colors: map<Key, Number>)
    requires |ps| > 0
    ensures var before, p := SmoothPass(ps[..|ps| - 1], near, colors), ps[|ps| - 1];
            var c := SmoothColor(p, near(p), colors);
            SmoothPass(ps, near, colors) == if c.Some? then before[KeyOf(p) := c.value] else before
  {
  }

  lemma {:induction false} SmoothPassValueAt(ps: seq<Particle>, near: Particle -> seq<Particle>,
                                             colors: map<Key, Number>, i: int)
    requires UniqueKeys(ps)
    requires 0 <= i < |ps| && SmoothColor(ps[i], near(ps[i]), colors).Some?
    ensures SmoothPass(ps, near, colors)[KeyOf(ps[i])] == SmoothColor(ps[i], near(ps[i]), colors).value
    decreases |ps|
  {
    var init := ps[..|ps| - 1];
    SmoothPassStep(ps, near, colors);
    if i < |init| {
      assert init[i] == ps[i];
      UniqueKeysPrefix(ps);
      SmoothPassValueAt(init, near, colors, i);
      assert KeyOf(ps[i]) != KeyOf(ps[|ps| - 1]);
    }
  }

  /** With unique particle keys, every smoothed particle's entry holds its
      smoothed colour. */
  lemma SmoothPassValues(ps: seq<Particle>, near: Particle -> seq<Particle>, colors: map<Key, Number>)
    requires UniqueKeys(ps)
    ensures forall i :: 0 <= i < |ps| && SmoothColor(ps[i], near(ps[i]), colors).Some? ==>
              SmoothPass(ps, near, colors)[KeyOf(ps[i])] == SmoothColor(ps[i], near(ps[i]), colors).value
  {
    forall i | 0 <= i < |ps| && SmoothColor(ps[i], near(ps[i]), colors).Some?
      ensures SmoothPass(ps, near, colors)[KeyOf(ps[i])] == SmoothColor(ps[i], near(ps[i]), colors).value
    {
      SmoothPassValueAt(ps, near, colors, i);
    }
  }

  /** The colour map the output step prints: the first pass's map, replaced by
      the smoothed map when a smoothing radius is given. */
  function FinalColors(mode: Mode, env: Env, ps: seq<Particle>,
                       smoothing: Option<Particle -> seq<Particle>>): (r: Result<map<Key, Number>, Crash>)
    ensures r.Err? <==> RaisesOn(mode, env, ps)
    ensures r.Ok? ==> r.value.Keys <= KeySet(ps)
  {
    var pass := ColorPass(mode, env, ps);
    if pass.Err? || smoothing.None? then pass
    else Ok(SmoothPass(ps, smoothing.value, pass.value))
  }

  /** The colour command after option validation and file reading: both passes
      and the sorted output. The summary message before the output divides by
      the number of particles, so an empty structure raises there. Otherwise
      every printed key belongs to the structure, is printed once, in strictly
      ascending order, with the final map's colour. */
  method Color(mode: Mode, env: Env, ps: seq<Particle>, smoothing: Option<Particle -> seq<Particle>>)
    returns (r: Result<seq<Line>, Crash>)
    ensures r.Err? <==> |ps| == 0 || RaisesOn(mode, env, ps)
    ensures |ps| == 0 ==> r == Err(DivisionByZero)
    ensures r.Ok? ==> forall i :: 0 <= i < |r.value| ==> KeyOfLine(r.value[i]) in KeySet(ps)
    ensures r.Ok? ==> forall i :: 0 <= i < |r.value| ==>
              var colors := FinalColors(mode, env, ps, smoothing).value;
              KeyOfLine(r.value[i]) in colors && r.value[i].color == colors[KeyOfLine(r.value[i])]
    ensures r.Ok? ==> forall k :: k in FinalColors(mode, env, ps, smoothing).value ==>
              exists i :: 0 <= i < |r.value| && KeyOfLine(r.value[i]) == k
    ensures r.Ok? ==> forall i, j :: 0 <= i < j < |r.value| ==>
              KeyLess(KeyOfLine(r.value[i]), KeyOfLine(r.value[j]))
  {
    var colors := FinalColors(mode, env, ps, smoothing);
    if colors.Err? {
      return Err(colors.error);
    }
    if |ps| == 0 {
      return Err(DivisionByZero);
    }
    var lines := SortedLines(colors.value);
    return Ok(lines);
  }
}

=== FILE: neighbour_stats.dfy ===
/** The per-particle neighbour statistics of the colour script. Each takes a
    particle and the list of particles its radius query returned. Whether that
    list contains the particle itself is decided by the spatial query, which is
    not part of this model; properties that rely on it say so with `p in ns`. */
module NeighbourStats {
  import opened Wrappers
  import opened Numbers
  import opened Particles

  /* ---------------------------------------------------------------------------
     Intra-homolog fraction and count
     ------------------------------------------------------------------------- */

  /** `q` is an intra-homolog neighbour of `p`: it lies on the same homolog and,
      when a separation cap is given, its locus is at most that far from `p`'s. */
  predicate IsIntraHom(p: Particle, q: Particle, maxSeparation: Option<int>)
  {
    && q.homName == p.homName
    && (maxSeparation.None? || Abs(q.refLocus - p.refLocus) <= maxSeparation.value)
  }

  /** How many members of `ns` are intra-homolog neighbours of `p`. */
  function MatchCount(p: Particle, ns: seq<Particle>, maxSeparation: Option<int>): (r: nat)
    ensures r <= |ns|
  {
    if |ns| == 0 then 0
    else (if IsIntraHom(p, ns[0], maxSeparation) then 1 else 0) + MatchCount(p, ns[1..], maxSeparation)
  }

  /** The loop of `intra_hom_fraction`: one step per list member, adding one to
      the particle counter and, on a match, to the match counter. */
  function FractionLoop(p: Particle, ns: seq<Particle>, maxSeparation: Option<int>,
                        numParticles: int, numIntraHom: int): (r: (int, int))
    ensures r.0 == numParticles + |ns|
    ensures r.1 == numIntraHom + MatchCount(p, ns, maxSeparation)
    decreases |ns|
  {
    if |ns| == 0 then (numParticles, numIntraHom)
    else
      FractionLoop(p, ns[1..], maxSeparation, numParticles + 1,
                   if IsIntraHom(p, ns[0], maxSeparation) then numIntraHom + 1 else numIntraHom)
  }

  /** The loop of `intra_hom_count`: adds one to `acc` per match. */
  function CountLoop(p: Particle, ns: seq<Particle>, maxSeparation: Option<int>, acc: int): (r: int)
    ensures r == acc + MatchCount(p, ns, maxSeparation)
    decreases |ns|
  {
    if |ns| == 0 then acc
    else CountLoop(p, ns[1..], maxSeparation, if IsIntraHom(p, ns[0], maxSeparation) then acc + 1 else acc)
  }

  /** `intra_hom_fraction`: both counters start at -1 to discount the particle
      itself. Undefined (`None`) exactly when the list has one member; an empty
      list gives (-1)/(-1) = 1. */
  function IntraHomFraction(p: Particle, ns: seq<Particle>, maxSeparation: Option<int>): (r: Option<real>)
    ensures r.None? <==> |ns| == 1
    ensures r.Some? ==> r.value * (|ns| - 1) as real == (MatchCount(p, ns, maxSeparation) - 1) as real
    ensures |ns| == 0 ==> r == Some(1.0)
  {
    var (numParticles, numIntraHom) := FractionLoop(p, ns, maxSeparation, -1, -1);
    if numParticles == 0 then None else Some(numIntraHom as real / numParticles as real)
  }

  /** `intra_hom_count`: the match count minus one for the particle itself. It
      is never skipped, so an empty list yields the sentinel -1. */
  function IntraHomCount(p: Particle, ns: seq<Particle>, maxSeparation: Option<int>): (r: int)
    ensures r == MatchCount(p, ns, maxSeparation) - 1
    ensures -1 <= r < |ns|
  {
    CountLoop(p, ns, maxSeparation, -1)
  }

  /** A particle is its own intra-homolog neighbour unless a negative cap is set. */
  predicate CapAdmitsSelf(maxSeparation: Option<int>)
  {
    maxSeparation.None? || maxSeparation.value >= 0
  }

  lemma {:induction false} SelfIsCounted(p: Particle, ns: seq<Particle>, maxSeparation: Option<int>)
    requires p in ns
    requires CapAdmitsSelf(maxSeparation)
    ensures MatchCount(p, ns, maxSeparation) >= 1
  {
    if ns[0] != p {
      SelfIsCounted(p, ns[1..], maxSeparation);
    }
  }

  /** When the query returned the particle itself and at least one other
      particle, the fraction is defined and lies in [0, 1]. */
  lemma FractionInUnitInterval(p: Particle, ns: seq<Particle>, maxSeparation: Option<int>)
    requires p in ns && |ns| >= 2
    requires CapAdmitsSelf(maxSeparation)
    ensures IntraHomFraction(p, ns, maxSeparation).Some?
    ensures 0.0 <= IntraHomFraction(p, ns, maxSeparation).value <= 1.0
  {
    SelfIsCounted(p, ns, maxSeparation);
    var f := IntraHomFraction(p, ns, maxSeparation).value;
    var d := (|ns| - 1) as real;
    var m := (MatchCount(p, ns, maxSeparation) - 1) as real;
    assert f * d == m && 0.0 <= m <= d && d > 0.0;
    RatioInUnitInterval(f, d, m);
  }

  lemma RatioInUnitInterval(f: real, d: real, m: real)
    requires d > 0.0 && 0.0 <= m <= d && f * d == m
    ensures 0.0 <= f <= 1.0
  {
    assert f == m / d;
  }

  /** When the query returned the particle itself, the count is a number of
      other particles: between 0 and the list length minus one. */
  lemma CountWithSelfIsNonNegative(p: Particle, ns: seq<Particle>, maxSeparation: Option<int>)
    requires p in ns
    requires CapAdmitsSelf(maxSeparation)
    ensures 0 <= IntraHomCount(p, ns, maxSeparation) <= |ns| - 1
  {
    SelfIsCounted(p, ns, maxSeparation);
  }

  /** Three mutually close particles, two on homolog "1a" and one on "1b": the
      fraction for ("1a", 100) is one match out of two others. */
  lemma FractionExample()
    ensures var a := Particle("1a", "1", 100);
            IntraHomFraction(a, [a, Particle("1a", "1", 200), Particle("1b", "1", 100)], None) == Some(0.5)
  {
    var a := Particle("1a", "1", 100);
    var b := Particle("1a", "1", 200);
    var c := Particle("1b", "1", 100);
    var ns := [a, b, c];
    assert ns[1..] == [b, c] && [b, c][1..] == [c] && [c][1..] == [];
    assert MatchCount(a, [c], None) == 0;
    assert MatchCount(a, [b, c], None) == 1;
    assert MatchCount(a, ns, None) == 2;
  }

  /** A negative cap admits no particle, not even the particle itself: with any
      one other particle in the list the fraction is (0 - 1) / (2 - 1) = -1,
      outside [0, 1]. */
  lemma NegativeCapFractionExample(a: Particle, b: Particle)
    ensures IntraHomFraction(a, [a, b], Some(-1)) == Some(-1.0)
  {
    assert [a, b][1..] == [b] && [b][1..] == [];
    assert MatchCount(a, [a, b], Some(-1)) == 0;
  }

  /* ---------------------------------------------------------------------------
     Homolog diversity and richness
     ------------------------------------------------------------------------- */

  /** The set of homolog names in a list. */
  function HomNameSet(ps: seq<Particle>): set<string>
  {
    set i | 0 <= i < |ps| :: ps[i].homName
  }

  /** How many members of `ps` lie on homolog `name`. */
  function Occurrences(ps: seq<Particle>, name: string): nat
  {
    if |ps| == 0 then 0
    else Occurrences(ps[..|ps| - 1], name) + (if ps[|ps| - 1].homName == name then 1 else 0)
  }

  /** A homolog histogram as `hom_diversity`'s counting dictionary holds it:
      (name, count) entries. Python 2 leaves the dictionary's order unspecified;
      here entries appear in order of first appearance, which does not change
      the entropy sum over exact reals. */
  type Histogram = seq<(string, nat)>

  predicate DistinctNames(h: Histogram)
  {
    forall i, j :: 0 <= i < j < |h| ==> h[i].0 != h[j].0
  }

  predicate Positive(h: Histogram)
  {
    forall i :: 0 <= i < |h| ==> h[i].1 >= 1
  }

  function NameSet(h: Histogram): set<string>
  {
    set i | 0 <= i < |h| :: h[i].0
  }

  /** The count recorded for `name`, or 0 when it has no entry. */
  function CountFor(h: Histogram, name: string): nat
  {
    if |h| == 0 then 0
    else if h[0].0 == name then h[0].1
    else CountFor(h[1..], name)
  }

  /** The sum of all counts. */
  function Total(h: Histogram): nat
  {
    if |h| == 0 then 0 else h[0].1 + Total(h[1..])
  }

  /** One step of the counting loop: create the entry at 0 if missing, then add one. */
  function Tally(h: Histogram, name: string): Histogram
  {
    if |h| == 0 then [(name, 1)]
    else if h[0].0 == name then [(name, h[0].1 + 1)] + h[1..]
    else [h[0]] + Tally(h[1..], name)
  }

  lemma NameSetCons(h: Histogram)
    requires |h| > 0
    ensures NameSet(h) == {h[0].0} + NameSet(h[1..])
  {
    forall k | k in NameSet(h) ensures k in {h[0].0} + NameSet(h[1..]) {
      var i :| 0 <= i < |h| && h[i].0 == k;
      if i > 0 {
        assert h[1..][i - 1] == h[i];
      }
    }
    forall k | k in NameSet(h[1..]) ensures k in NameSet(h) {
      var i :| 0 <= i < |h[1..]| && h[1..][i].0 == k;
      assert h[i + 1] == h[1..][i];
    }
  }

  lemma DistinctTail(h: Histogram)
    requires |h| > 0 && DistinctNames(h)
    ensures DistinctNames(h[1..])
    ensures h[0].0 !in NameSet(h[1..])
  {
    forall i, j | 0 <= i < j < |h[1..]| ensures h[1..][i].0 != h[1..][j].0 {
      assert h[1..][i] == h[i + 1] && h[1..][j] == h[j + 1];
    }
    forall i | 0 <= i < |h[1..]| ensures h[1..][i].0 != h[0].0 {
      assert h[1..][i] == h[i + 1];
    }
  }

  lemma DistinctCons(x: (string, nat), t: Histogram)
    requires DistinctNames(t) && x.0 !in NameSet(t)
    ensures DistinctNames([x] + t)
  {
    var r := [x] + t;
    forall i, j | 0 <= i < j < |r| ensures r[i].0 != r[j].0 {
      assert r[j] == t[j - 1];
      if i > 0 {
        assert r[i] == t[i - 1];
      } else {
        assert r[j].0 in NameSet(t);
      }
    }
  }

  /** Tallying keeps names distinct and adds `name` to the name set. */
  lemma {:induction false} TallyNames(h: Histogram, name: string)
    requires DistinctNames(h)
    ensures DistinctNames(Tally(h, name))
    ensures NameSet(Tally(h, name)) == NameSet(h) + {name}
  {
    var r := Tally(h, name);
    NameSetCons(r);
    if |h| == 0 {
      assert r[1..] == [];
    } else if h[0].0 == name {
      assert r[1..] == h[1..];
      NameSetCons(h);
      DistinctTail(h);
      DistinctCons(r[0], h[1..]);
    } else {
      var t := Tally(h[1..], name);
      DistinctTail(h);
      TallyNames(h[1..], name);
      assert r[1..] == t && r == [h[0]] + t;
      NameSetCons(h);
      DistinctCons(h[0], t);
    }
  }

  /** Tallying adds one to `name`'s count and to the total, and nothing else. */
  lemma {:induction false} TallyCounts(h: Histogram, name: string)
    ensures forall k :: CountFor(Tally(h, name), k) == CountFor(h, k) + (if k == name then 1 else 0)
    ensures Total(Tally(h, name)) == Total(h) + 1
  {
    var r := Tally(h, name);
    if |h| > 0 && h[0].0 == name {
      assert r[1..] == h[1..];
    } else if |h| > 0 {
      TallyCounts(h[1..], name);
      assert r[1..] == Tally(h[1..], name);
    }
  }

  lemma PositiveTail(h: Histogram)
    requires |h| > 0 && Positive(h)
    ensures Positive(h[1..])
  {
    forall i | 0 <= i < |h[1..]| ensures h[1..][i].1 >= 1 {
      assert h[1..][i] == h[i + 1];
    }
  }

  /** Tallying creates entries at 1 and only increments existing ones. */
  lemma {:induction false} TallyPositive(h: Histogram, name: string)
    requires Positive(h)
    ensures Positive(Tally(h, name))
  {
    var r := Tally(h, name);
    if |h| > 0 && h[0].0 == name {
      forall i | 0 <= i < |r| ensures r[i].1 >= 1 {
        if i > 0 {
          assert r[i] == h[i];
        }
      }
    } else if |h| > 0 {
      PositiveTail(h);
      TallyPositive(h[1..], name);
      forall i | 0 <= i < |r| ensures r[i].1 >= 1 {
        if i > 0 {
          assert r[i] == Tally(h[1..], name)[i - 1];
        }
      }
    }
  }

  lemma HomNameSetSnoc(ps: seq<Particle>)
    requires |ps| > 0
    ensures HomNameSet(ps) == HomNameSet(ps[..|ps| - 1]) + {ps[|ps| - 1].homName}
  {
    var init := ps[..|ps| - 1];
    forall k | k in HomNameSet(ps) ensures k in HomNameSet(init) + {ps[|ps| - 1].homName} {
      var i :| 0 <= i < |ps| && ps[i].homName == k;
      if i < |ps| - 1 {
        assert init[i] == ps[i];
      }
    }
    forall k | k in HomNameSet(init) ensures k in HomNameSet(ps) {
      var i :| 0 <= i < |init| && init[i].homName == k;
      assert ps[i] == init[i];
    }
  }

  /** The counting dictionary of `hom_diversity` after its loop: one entry per
      distinct homolog name, each holding that homolog's number of list members,
      the counts summing to the list length (`total_count`). */
  function HistogramOf(ps: seq<Particle>): (h: Histogram)
    ensures DistinctNames(h)
    ensures Positive(h)
    ensures NameSet(h) == HomNameSet(ps)
    ensures forall name :: CountFor(h, name) == Occurrences(ps, name)
    ensures Total(h) == |ps|
    decreases |ps|
  {
    if |ps| == 0 then []
    else
      var h0 := HistogramOf(ps[..|ps| - 1]);
      TallyNames(h0, ps[|ps| - 1].homName);
      TallyCounts(h0, ps[|ps| - 1].homName);
      TallyPositive(h0, ps[|ps| - 1].homName);
      HomNameSetSnoc(ps);
      Tally(h0, ps[|ps| - 1].homName)
  }

  /** The entropy loop: subtract f * ln(f) for each entry's fraction f in turn.
      The logarithm is a parameter; its numeric value is not modelled. */
  function Entropy(h: Histogram, total: nat, ln: real -> real): real
    requires total > 0 || |h| == 0
    decreases |h|
  {
    if |h| == 0 then 0.0
    else
      var fraction := h[|h| - 1].1 as real / total as real;
      Entropy(h[..|h| - 1], total, ln) - fraction * ln(fraction)
  }

  /** `hom_diversity`: Shannon entropy of the homolog distribution over the whole
      list, the particle itself included. */
  function HomDiversity(ps: seq<Particle>, ln: real -> real): (r: real)
    ensures |ps| == 0 ==> r == 0.0
  {
    var h := HistogramOf(ps);
    assert |ps| == 0 ==> |h| == 0 by {
      if |h| > 0 {
        assert Total(h) >= h[0].1 >= 1;
      }
    }
    Entropy(h, |ps|, ln)
  }

  lemma {:induction false} DistinctNameSetSize(h: Histogram)
    requires DistinctNames(h)
    ensures |NameSet(h)| == |h|
    decreases |h|
  {
    if |h| > 0 {
      DistinctTail(h);
      DistinctNameSetSize(h[1..]);
      NameSetCons(h);
    }
  }

  /** A list whose members all lie on one homolog has zero diversity: its
      histogram is a single entry of fraction 1, and ln(1) = 0. */
  lemma SingleHomologHasZeroDiversity(ps: seq<Particle>, ln: real -> real)
    requires |ps| > 0
    requires forall i :: 0 <= i < |ps| ==> ps[i].homName == ps[0].homName
    requires ln(1.0) == 0.0
    ensures HomDiversity(ps, ln) == 0.0
  {
    var h := HistogramOf(ps);
    assert HomNameSet(ps) == {ps[0].homName};
    DistinctNameSetSize(h);
    assert |h| == 1;
    assert h[1..] == [];
    assert Total(h) == h[0].1 == |ps|;
    assert h[..0] == [];
    assert Entropy(h[..0], |ps|, ln) == 0.0;
    assert h[0].1 as real / |ps| as real == 1.0;
  }

  /** Four neighbours, three on "1a" and one on "1b": the histogram is
      [("1a", 3), ("1b", 1)] and the entropy is -(3/4 ln 3/4 + 1/4 ln 1/4). */
  lemma DiversityExample(ln: real -> real)
    ensures var ps := [Particle("1a", "1", 100), Particle("1a", "1", 200),
                       Particle("1b", "1", 100), Particle("1a", "1", 300)];
            && HistogramOf(ps) == [("1a", 3), ("1b", 1)]
            && HomDiversity(ps, ln) == 0.0 - 0.75 * ln(0.75) - 0.25 * ln(0.25)
  {
    var a, b, c, d := Particle("1a", "1", 100), Particle("1a", "1", 200),
                      Particle("1b", "1", 100), Particle("1a", "1", 300);
    var none: seq<Particle> := [];
    assert [a][..0] == none && [a, b][..1] == [a] && [a, b, c][..2] == [a, b] && [a, b, c, d][..3] == [a, b, c];
    var h0: Histogram := [];
    assert HistogramOf(none) == h0;
    assert HistogramOf([a]) == Tally(h0, "1a") == [("1a", 1)];
    var h1: Histogram := [("1a", 1)];
    assert h1[1..] == h0;
    assert HistogramOf([a, b]) == Tally(h1, "1a") == [("1a", 2)];
    var h2: Histogram := [("1a", 2)];
    assert h2[1..] == h0;
    assert Tally(h2, "1b") == [("1a", 2)] + Tally(h0, "1b");
    assert HistogramOf([a, b, c]) == Tally(h2, "1b") == [("1a", 2), ("1b", 1)];
    var h3: Histogram := [("1a", 2), ("1b", 1)];
    assert h3[1..] == [("1b", 1)];
    var h: Histogram := [("1a", 3), ("1b", 1)];
    assert HistogramOf([a, b, c, d]) == Tally(h3, "1a") == h;
    assert h[..1] == [("1a", 3)] && h[..1][..0] == h0;
    assert Entropy(h[..1], 4, ln) == 0.0 - 0.75 * ln(0.75);
  }

  /** The set built by `hom_richness`'s loop. */
  function NamesSeen(ps: seq<Particle>): (s: set<string>)
    ensures s == HomNameSet(ps)
  {
    if |ps| == 0 then {}
    else
      HomNameSetSnoc(ps);
      NamesSeen(ps[..|ps| - 1]) + {ps[|ps| - 1].homName}
  }

  /** `hom_richness`: the number of distinct homolog names in the list. */
  function HomRichness(ps: seq<Particle>): (r: nat)
    ensures r == |HomNameSet(ps)|
  {
    |NamesSeen(ps)|
  }

  /** A non-empty list has richness at least 1 and at most its length. */
  lemma {:induction false} RichnessBounds(ps: seq<Particle>)
    requires |ps| > 0
    ensures 1 <= HomRichness(ps) <= |ps|
  {
    var h := HistogramOf(ps);
    DistinctNameSetSize(h);
    assert ps[0].homName in HomNameSet(ps);
    PositiveTotalBound(h);
  }

  lemma {:induction false} PositiveTotalBound(h: Histogram)
    requires Positive(h)
    ensures |h| <= Total(h)
  {
    if |h| > 0 {
      PositiveTail(h);
      PositiveTotalBound(h[1..]);
    }
  }

  /** Richness is the number of entries of the diversity histogram. */
  lemma RichnessIsHistogramSize(ps: seq<Particle>)
    ensures HomRichness(ps) == |HistogramOf(ps)|
  {
    DistinctNameSetSize(HistogramOf(ps));
  }

  /* ---------------------------------------------------------------------------
     Smoothing
     ------------------------------------------------------------------------- */

  /** The colours `colors` already holds for members of `ns`, in list order. */
  function ColoredValues(ns: seq<Particle>, colors: map<Key, Number>): seq<Number>
  {
    if |ns| == 0 then []
    else (if KeyOf(ns[0]) in colors then [colors[KeyOf(ns[0])]] else []) + ColoredValues(ns[1..], colors)
  }

  function RealSum(vs: seq<Number>): real
  {
    if |vs| == 0 then 0.0 else Value(vs[0]) + RealSum(vs[1..])
  }

  predicate AllInt(vs: seq<Number>)
  {
    forall i :: 0 <= i < |vs| ==> vs[i].Int?
  }

  /** The loop of `smooth_color`: counts coloured neighbours and accumulates
      their colours in a Python 2 sum that starts as the int 0. */
  function SmoothLoop(ns: seq<Particle>, colors: map<Key, Number>, count: nat, sum: Number): (r: (nat, Number))
    ensures r.0 == count + |ColoredValues(ns, colors)|
    ensures Value(r.1) == Value(sum) + RealSum(ColoredValues(ns, colors))
    ensures r.1.Int? <==> sum.Int? && AllInt(ColoredValues(ns, colors))
    decreases |ns|
  {
    if |ns| == 0 then (count, sum)
    else
      var rest := ColoredValues(ns[1..], colors);
      if KeyOf(ns[0]) in colors then
        var c := colors[KeyOf(ns[0])];
        assert ColoredValues(ns, colors) == [c] + rest;
        assert ([c] + rest)[1..] == rest;
        AllIntCons(c, rest);
        SmoothLoop(ns[1..], colors, count + 1, Add(sum, c))
      else
        assert ColoredValues(ns, colors) == rest;
        SmoothLoop(ns[1..], colors, count, sum)
  }

  lemma AllIntCons(c: Number, rest: seq<Number>)
    ensures AllInt([c] + rest) <==> c.Int? && AllInt(rest)
  {
    if AllInt([c] + rest) {
      assert ([c] + rest)[0] == c;
      forall i | 0 <= i < |rest| ensures rest[i].Int? {
        assert ([c] + rest)[i + 1] == rest[i];
      }
    }
    if c.Int? && AllInt(rest) {
      forall i | 0 <= i < |[c] + rest| ensures ([c] + rest)[i].Int? {
        if i > 0 {
          assert ([c] + rest)[i] == rest[i - 1];
        }
      }
    }
  }

  /** The arithmetic mean of a non-empty list of numbers. */
  function Mean(vs: seq<Number>): real
    requires |vs| > 0
  {
    RealSum(vs) / |vs| as real
  }

  /** `smooth_color`: the mean colour over the neighbours that already have one,
      or `None` when none has. Under Python 2 the sum stays an int while every
      colour is an int, and the mean of int colours is floored. */
  function SmoothColor(p: Particle, ns: seq<Particle>, colors: map<Key, Number>): (r: Option<Number>)
    ensures r.None? <==> |ColoredValues(ns, colors)| == 0
    ensures r.Some? ==> (r.value.Int? <==> AllInt(ColoredValues(ns, colors)))
    ensures r.Some? && r.value.Float? ==> r.value.x == Mean(ColoredValues(ns, colors))
    ensures r.Some? && r.value.Int? ==> r.value.i == Mean(ColoredValues(ns, colors)).Floor
  {
    var loop := SmoothLoop(ns, colors, 0, Int(0));
    if loop.0 == 0 then None else Some(DivCount(loop.1, loop.0))
  }

  /** Position of a smallest value. */
  function ArgMin(vs: seq<Number>): (k: nat)
    requires |vs| > 0
    ensures k < |vs|
    ensures forall i :: 0 <= i < |vs| ==> Value(vs[k]) <= Value(vs[i])
  {
    if |vs| == 1 then 0
    else
      var k := 1 + ArgMin(vs[1..]);
      assert forall i :: 1 <= i < |vs| ==> vs[i] == vs[1..][i - 1];
      if Value(vs[0]) <= Value(vs[k]) then 0 else k
  }

  /** Position of a largest value. */
  function ArgMax(vs: seq<Number>): (k: nat)
    requires |vs| > 0
    ensures k < |vs|
    ensures forall i :: 0 <= i < |vs| ==> Value(vs[i]) <= Value(vs[k])
  {
    if |vs| == 1 then 0
    else
      var k := 1 + ArgMax(vs[1..]);
      assert forall i :: 1 <= i < |vs| ==> vs[i] == vs[1..][i - 1];
      if Value(vs[k]) <= Value(vs[0]) then 0 else k
  }

  lemma {:induction false} RealSumBounds(vs: seq<Number>, lo: real, hi: real)
    requires forall i :: 0 <= i < |vs| ==> lo <= Value(vs[i]) <= hi
    ensures lo * |vs| as real <= RealSum(vs) <= hi * |vs| as real
  {
    if |vs| > 0 {
      assert forall i :: 0 <= i < |vs[1..]| ==> vs[1..][i] == vs[i + 1];
      RealSumBounds(vs[1..], lo, hi);
    }
  }

  /** A mean of values lying between `lo` and `hi` lies between them too. */
  lemma MeanBetween(vs: seq<Number>, lo: real, hi: real)
    requires |vs| > 0
    requires forall i :: 0 <= i < |vs| ==> lo <= Value(vs[i]) <= hi
    ensures lo <= Mean(vs) <= hi
  {
    RealSumBounds(vs, lo, hi);
    var n := |vs| as real;
    var m := Mean(vs);
    assert m * n == RealSum(vs);
    if m < lo {
      assert (lo - m) * n > 0.0;
    }
    if m > hi {
      assert (m - hi) * n > 0.0;
    }
  }

  /** A smoothed colour lies between the smallest and the largest colour it
      averages (for int colours, the floored mean still does). */
  lemma SmoothColorWithinRange(p: Particle, ns: seq<Particle>, colors: map<Key, Number>)
    requires SmoothColor(p, ns, colors).Some?
    ensures var vs := ColoredValues(ns, colors);
            var v := Value(SmoothColor(p, ns, colors).value);
            Value(vs[ArgMin(vs)]) <= v <= Value(vs[ArgMax(vs)])
  {
    var vs := ColoredValues(ns, colors);
    var r := SmoothColor(p, ns, colors).value;
    var lo, hi := Value(vs[ArgMin(vs)]), Value(vs[ArgMax(vs)]);
    MeanBetween(vs, lo, hi);
    if r.Int? {
      assert vs[ArgMin(vs)].Int?;
      FloorBetween(Mean(vs), vs[ArgMin(vs)].i, hi);
    }
  }

  /** Flooring keeps a value above an int lower bound and below any upper bound. */
  lemma FloorBetween(m: real, lo: int, hi: real)
    requires lo as real <= m <= hi
    ensures lo <= m.Floor && m.Floor as real <= hi
  {
  }

  lemma {:induction false} ColoredValuesUniform(ns: seq<Particle>, colors: map<Key, Number>, key: Key)
    requires key in colors
    requires forall i :: 0 <= i < |ns| && KeyOf(ns[i]) in colors ==> KeyOf(ns[i]) == key
    ensures forall i :: 0 <= i < |ColoredValues(ns, colors)| ==> ColoredValues(ns, colors)[i] == colors[key]
    ensures (exists i :: 0 <= i < |ns| && KeyOf(ns[i]) == key) ==> |ColoredValues(ns, colors)| >= 1
  {
    if |ns| > 0 {
      assert forall i :: 0 <= i < |ns[1..]| ==> ns[1..][i] == ns[i + 1];
      ColoredValuesUniform(ns[1..], colors, key);
      if exists i :: 0 <= i < |ns| && KeyOf(ns[i]) == key {
        var i :| 0 <= i < |ns| && KeyOf(ns[i]) == key;
        if i > 0 {
          assert KeyOf(ns[1..][i - 1]) == key;
        }
      }
    }
  }

  /** Smoothing a particle whose only coloured neighbour is itself returns its
      own colour unchanged (an int colour stays an int). */
  lemma SmoothColorOfLoneColoredSelf(p: Particle, ns: seq<Particle>, colors: map<Key, Number>)
    requires p in ns
    requires KeyOf(p) in colors
    requires forall i :: 0 <= i < |ns| && KeyOf(ns[i]) in colors ==> KeyOf(ns[i]) == KeyOf(p)
    ensures SmoothColor(p, ns, colors) == Some(colors[KeyOf(p)])
  {
    var c := colors[KeyOf(p)];
    var vs := ColoredValues(ns, colors);
    var i :| 0 <= i < |ns| && ns[i] == p;
    ColoredValuesUniform(ns, colors, KeyOf(p));
    MeanBetween(vs, Value(c), Value(c));
    assert vs[0] == c;
    if c.Int? {
      assert AllInt(vs);
    }
  }
}

=== FILE: numbers.dfy ===
/** Python 2 numbers as they occur in colour data. The colour script runs under
    Python 2, where `/` on two ints is floor division, so whether a colour is an
    int or a float is observable once colours are averaged. Floats are modelled
    as exact reals; rounding is not modelled. */
module Numbers {

  datatype Number = Int(i: int) | Float(x: real)

  /** The mathematical value of a number. */
  function Value(n: Number): real
  {
    match n
    case Int(i) => i as real
    case Float(x) => x
  }

  /** Python's `abs` on an int. */
  function Abs(x: int): nat
  {
    if x < 0 then -x else x
  }

  /** Python 2 `a + b`: an int only when both operands are ints. */
  function Add(a: Number, b: Number): (r: Number)
    ensures Value(r) == Value(a) + Value(b)
    ensures r.Int? <==> a.Int? && b.Int?
  {
    if a.Int? && b.Int? then Int(a.i + b.i) else Float(Value(a) + Value(b))
  }

  /** Python 2 `a / n` for a positive int `n`: floor division when `a` is an int,
      true division when it is a float. (Dafny's `/` on `int` rounds towards
      negative infinity for a positive divisor, which is Python's floor.) */
  function DivCount(a: Number, n: int): (r: Number)
    requires n > 0
    ensures r.Int? <==> a.Int?
    ensures r.Float? ==> r.x == Value(a) / n as real
    ensures r.Int? ==> r.i == (Value(a) / n as real).Floor
  {
    match a
    case Int(i) => FloorOfQuotient(i, n); Int(i / n)
    case Float(x) => Float(x / n as real)
  }

  lemma FloorOfQuotient(i: int, n: int)
    requires n > 0
    ensures (i as real / n as real).Floor == i / n
  {
    var q, m := i / n, i % n;
    assert i == q * n + m && 0 <= m < n;
    var x := i as real / n as real;
    assert x * n as real == i as real;
    assert (q * n) as real == q as real * n as real;
    assert q as real * n as real <= x * n as real;
    assert x * n as real < (q + 1) as real * n as real;
    assert q as real <= x < (q + 1) as real;
  }
}

=== FILE: options.dfy ===
/** Validation of the colour command's options: the scan over the `(flag, arg)`
    pairs getopt returns, and the two checks that follow it. */
module Options {
  import opened Wrappers

  /** One parsed option: its flag letter and argument ("" for `-h` and `-C`). */
  datatype Opt = Opt(flag: char, arg: string)

  /** Schemes that colour by a neighbourhood and take its radius as argument. */
  const RadiusFlags: set<char> := {'i', 'I', 'd', 'r'}

  /** Every flag other than `-s` (smoothing radius) and `-S` (separation cap)
      selects a colour scheme, including `-m`, which getopt accepts. */
  predicate IsScheme(flag: char)
  {
    flag != 's' && flag != 'S'
  }

  /** The variables the option loop updates. */
  datatype Scan = Scan(numSchemes: int, colorMode: Option<char>, colorFile: Option<string>,
                       maxDistance: Option<string>, smoothDistance: Option<string>,
                       maxSeparation: Option<string>)

  const Defaults := Scan(0, None, None, None, None, None)

  /** One iteration of the option loop. */
  function Step(st: Scan, o: Opt): Scan
  {
    if o.flag in RadiusFlags then
      st.(numSchemes := st.numSchemes + 1, colorMode := Some(o.flag), maxDistance := Some(o.arg))
    else if o.flag == 's' then
      st.(smoothDistance := Some(o.arg))
    else if o.flag == 'S' then
      st.(maxSeparation := Some(o.arg))
    else
      st.(numSchemes := st.numSchemes + 1, colorMode := Some(o.flag),
          colorFile := if o.arg != "" then Some(o.arg) else st.colorFile)
  }

  /** The option loop, run over `opts` in order. */
  function ScanOptions(opts: seq<Opt>): Scan
  {
    if |opts| == 0 then Defaults else Step(ScanOptions(opts[..|opts| - 1]), opts[|opts| - 1])
  }

  /** The scheme flags among `opts`, in order. */
  function SchemeFlags(opts: seq<Opt>): seq<char>
  {
    if |opts| == 0 then []
    else (if IsScheme(opts[0].flag) then [opts[0].flag] else []) + SchemeFlags(opts[1..])
  }

  /** The scheme selected last, if any. */
  function LastScheme(opts: seq<Opt>): Option<char>
  {
    var flags := SchemeFlags(opts);
    if |flags| == 0 then None else Some(flags[|flags| - 1])
  }

  /** The argument of the last option whose flag is in `flags`. */
  function LastArg(opts: seq<Opt>, flags: set<char>): Option<string>
  {
    if |opts| == 0 then None
    else if opts[|opts| - 1].flag in flags then Some(opts[|opts| - 1].arg)
    else LastArg(opts[..|opts| - 1], flags)
  }

  /** The last non-empty argument of an annotation-file scheme (`-c`, `-n`, `-l`,
      `-L`, `-m`; `-h` and `-C` carry none). */
  function FileArg(opts: seq<Opt>): Option<string>
  {
    if |opts| == 0 then None
    else
      var o := opts[|opts| - 1];
      if IsScheme(o.flag) && o.flag !in RadiusFlags && o.arg != "" then Some(o.arg)
      else FileArg(opts[..|opts| - 1])
  }

  lemma {:induction false} SchemeFlagsAppend(a: seq<Opt>, b: seq<Opt>)
    ensures SchemeFlags(a + b) == SchemeFlags(a) + SchemeFlags(b)
  {
    if |a| == 0 {
      assert a + b == b;
    } else {
      var head := if IsScheme(a[0].flag) then [a[0].flag] else [];
      assert (a + b)[0] == a[0];
      assert (a + b)[1..] == a[1..] + b;
      assert SchemeFlags(a + b) == head + SchemeFlags(a[1..] + b);
      SchemeFlagsAppend(a[1..], b);
      assert SchemeFlags(a) == head + SchemeFlags(a[1..]);
    }
  }

  /** After the loop, the counter holds the number of scheme flags, the mode is
      the last scheme flag, and each argument variable holds the argument of
      the last flag that sets it. */
  lemma {:induction false} ScanMeaning(opts: seq<Opt>)
    ensures ScanOptions(opts) ==
            Scan(|SchemeFlags(opts)|, LastScheme(opts), FileArg(opts),
                 LastArg(opts, RadiusFlags), LastArg(opts, {'s'}), LastArg(opts, {'S'}))
  {
    if |opts| > 0 {
      var init, o := opts[..|opts| - 1], opts[|opts| - 1];
      ScanMeaning(init);
      assert opts == init + [o];
      SchemeFlagsAppend(init, [o]);
      assert [o][1..] == [];
    }
  }

  /** `-s` and `-S` never change the scheme count nor which scheme is selected,
      wherever they appear. */
  lemma {:induction false} NonSchemeFlagsDoNotCount(a: seq<Opt>, o: Opt, b: seq<Opt>)
    requires !IsScheme(o.flag)
    ensures SchemeFlags(a + [o] + b) == SchemeFlags(a + b)
    ensures LastScheme(a + [o] + b) == LastScheme(a + b)
  {
    SchemeFlagsAppend(a + [o], b);
    SchemeFlagsAppend(a, [o]);
    SchemeFlagsAppend(a, b);
    assert [o][1..] == [];
  }

  datatype UsageError = MissingInput | SeparationWithoutFraction | NotExactlyOneScheme

  /** What a successful validation hands on to the colouring passes. Numeric
      arguments stay as text: their conversion is not modelled. */
  datatype Config = Config(mode: char, colorFile: Option<string>, maxDistance: Option<string>,
                           smoothDistance: Option<string>, maxSeparation: Option<string>)

  /** Option validation: no input file gives the usage message; then `-S` is
      rejected unless the selected mode is `i`; only then must exactly one
      scheme have been given. Every rejection exits with status 1. */
  function Validate(opts: seq<Opt>, args: seq<string>): (r: Result<Config, UsageError>)
    ensures |args| == 0 ==> r == Err(MissingInput)
    ensures (|args| > 0 && LastArg(opts, {'S'}).Some? && LastScheme(opts) != Some('i'))
            ==> r == Err(SeparationWithoutFraction)
    ensures (|args| > 0 && (LastArg(opts, {'S'}).Some? ==> LastScheme(opts) == Some('i'))
             && |SchemeFlags(opts)| != 1)
            ==> r == Err(NotExactlyOneScheme)
    ensures r.Ok? <==> |args| > 0 && |SchemeFlags(opts)| == 1
                       && (LastArg(opts, {'S'}).Some? ==> SchemeFlags(opts)[0] == 'i')
    ensures r.Ok? ==> r.value == Config(SchemeFlags(opts)[0], FileArg(opts), LastArg(opts, RadiusFlags),
                                        LastArg(opts, {'s'}), LastArg(opts, {'S'}))
  {
    if |args| == 0 then Err(MissingInput)
    else
      var st := ScanOptions(opts);
      ScanMeaning(opts);
      if st.maxSeparation.Some? && st.colorMode != Some('i') then Err(SeparationWithoutFraction)
      else if st.numSchemes != 1 then Err(NotExactlyOneScheme)
      else Ok(Config(st.colorMode.value, st.colorFile, st.maxDistance, st.smoothDistance, st.maxSeparation))
  }

  /** `-S` is refused with the count scheme `-I`, although the usage text offers
      that combination. */
  lemma SeparationRefusedWithCount(opts: seq<Opt>, args: seq<string>)
    requires |args| > 0
    requires SchemeFlags(opts) == ['I']
    requires LastArg(opts, {'S'}).Some?
    ensures Validate(opts, args) == Err(SeparationWithoutFraction)
  {
  }

  /** The separation check comes first: `-S` with two schemes, the last of
      which is not `i`, is reported as a separation error. */
  lemma SeparationCheckedBeforeCount()
    ensures Validate([Opt('d', "3"), Opt('I', "3"), Opt('S', "1000")], ["in.3dg"])
            == Err(SeparationWithoutFraction)
    ensures Validate([Opt('d', "3"), Opt('i', "3"), Opt('S', "1000")], ["in.3dg"])
            == Err(NotExactlyOneScheme)
  {
    var o1, o2, o3 := Opt('d', "3"), Opt('I', "3"), Opt('S', "1000");
    assert [o1, o2, o3][..2] == [o1, o2] && [o1, o2][..1] == [o1];
    assert [o1, o2, o3][1..] == [o2, o3] && [o2, o3][1..] == [o3] && [o3][1..] == [];
    var o2' := Opt('i', "3");
    assert [o1, o2', o3][..2] == [o1, o2'];
    assert [o1, o2', o3][1..] == [o2', o3] && [o2', o3][1..] == [o3];
  }
}

=== FILE: output.dfy ===
/** The final output: one line per coloured particle, in ascending key order
    under Python's tuple and string comparison. */
module Output {
  import opened Numbers
  import opened Particles

  /** Python's `<` on strings: character codes compared left to right, a proper
      prefix sorting first. */
  predicate StrLess(a: string, b: string)
    decreases |a|
  {
    if |a| == 0 then |b| > 0
    else if |b| == 0 then false
    else if a[0] != b[0] then a[0] < b[0]
    else StrLess(a[1..], b[1..])
  }

  /** Python's `<` on `(hom_name, ref_locus)` tuples. */
  predicate KeyLess(a: Key, b: Key)
  {
    StrLess(a.0, b.0) || (a.0 == b.0 && a.1 < b.1)
  }

  lemma {:induction false} StrLessIrreflexive(a: string)
    ensures !StrLess(a, a)
  {
    if |a| > 0 {
      StrLessIrreflexive(a[1..]);
    }
  }

  lemma {:induction false} StrLessTransitive(a: string, b: string, c: string)
    requires StrLess(a, b) && StrLess(b, c)
    ensures StrLess(a, c)
    decreases |a|
  {
    if |a| > 0 && a[0] == b[0] && b[0] == c[0] {
      StrLessTransitive(a[1..], b[1..], c[1..]);
    }
  }

  lemma {:induction false} StrLessTotal(a: string, b: string)
    requires a != b
    ensures StrLess(a, b) || StrLess(b, a)
    decreases |a|
  {
    if |a| > 0 && |b| > 0 && a[0] == b[0] {
      assert a == [a[0]] + a[1..] && b == [b[0]] + b[1..];
      StrLessTotal(a[1..], b[1..]);
    }
  }

  lemma KeyLessIrreflexive(a: Key)
    ensures !KeyLess(a, a)
  {
    StrLessIrreflexive(a.0);
  }

  lemma KeyLessTransitive(a: Key, b: Key, c: Key)
    requires KeyLess(a, b) && KeyLess(b, c)
    ensures KeyLess(a, c)
  {
    if StrLess(a.0, b.0) && StrLess(b.0, c.0) {
      StrLessTransitive(a.0, b.0, c.0);
    }
  }

  lemma KeyLessTotal(a: Key, b: Key)
    requires a != b
    ensures KeyLess(a, b) || KeyLess(b, a)
  {
    if a.0 != b.0 {
      StrLessTotal(a.0, b.0);
    }
  }

  /** `k` is the least element of `s`. */
  predicate IsLeast(k: Key, s: set<Key>)
  {
    k in s && forall x :: x in s && x != k ==> KeyLess(k, x)
  }

  /** Every non-empty finite set of keys has a least element. */
  lemma {:induction false} LeastKeyExists(s: set<Key>)
    requires s != {}
    ensures exists k :: IsLeast(k, s)
    decreases |s|
  {
    var y :| y in s;
    if s == {y} {
      assert IsLeast(y, s);
    } else {
      var rest := s - {y};
      LeastKeyExists(rest);
      var m :| IsLeast(m, rest);
      if KeyLess(y, m) {
        forall x | x in s && x != y ensures KeyLess(y, x) {
          if x != m {
            KeyLessTransitive(y, m, x);
          }
        }
        assert IsLeast(y, s);
      } else {
        KeyLessTotal(y, m);
        assert IsLeast(m, s);
      }
    }
  }

  /** One output line: homolog, locus, colour. */
  datatype Line = Line(homName: string, refLocus: int, color: Number)

  function KeyOfLine(l: Line): Key
  {
    (l.homName, l.refLocus)
  }

  /** Lines in strictly ascending key order. */
  predicate Ascending(lines: seq<Line>)
  {
    forall i, j :: 0 <= i < j < |lines| ==> KeyLess(KeyOfLine(lines[i]), KeyOfLine(lines[j]))
  }

  /** Every line so far precedes every key still to be written. */
  predicate Precedes(lines: seq<Line>, rest: set<Key>)
  {
    forall i, k :: 0 <= i < |lines| && k in rest ==> KeyLess(KeyOfLine(lines[i]), k)
  }

  /** Every line so far is a written key of `colors` carrying its colour. */
  predicate Faithful(lines: seq<Line>, colors: map<Key, Number>, rest: set<Key>)
  {
    forall i :: 0 <= i < |lines| ==>
      KeyOfLine(lines[i]) in colors && KeyOfLine(lines[i]) !in rest
      && lines[i].color == colors[KeyOfLine(lines[i])]
  }

  /** Every key of `colors` no longer pending has a line. */
  predicate Covers(lines: seq<Line>, colors: map<Key, Number>, rest: set<Key>)
  {
    forall k :: k in colors && k !in rest ==> exists i :: 0 <= i < |lines| && KeyOfLine(lines[i]) == k
  }

  lemma AscendingStep(lines: seq<Line>, rest: set<Key>, k: Key, line: Line)
    requires Ascending(lines) && Precedes(lines, rest) && k in rest && KeyOfLine(line) == k
    ensures Ascending(lines + [line])
  {
    var next := lines + [line];
    forall i, j | 0 <= i < j < |next| ensures KeyLess(KeyOfLine(next[i]), KeyOfLine(next[j])) {
      assert next[i] == lines[i];
      if j < |lines| {
        assert next[j] == lines[j];
      }
    }
  }

  lemma PrecedesStep(lines: seq<Line>, rest: set<Key>, k: Key, line: Line)
    requires Precedes(lines, rest) && IsLeast(k, rest) && KeyOfLine(line) == k
    ensures Precedes(lines + [line], rest - {k})
  {
    var next := lines + [line];
    forall i, x | 0 <= i < |next| && x in rest - {k} ensures KeyLess(KeyOfLine(next[i]), x) {
      if i < |lines| {
        assert next[i] == lines[i];
      }
    }
  }

  lemma FaithfulStep(lines: seq<Line>, colors: map<Key, Number>, rest: set<Key>, k: Key)
    requires Faithful(lines, colors, rest) && rest <= colors.Keys && k in rest
    ensures Faithful(lines + [Line(k.0, k.1, colors[k])], colors, rest - {k})
  {
    var next := lines + [Line(k.0, k.1, colors[k])];
    forall i | 0 <= i < |next|
      ensures KeyOfLine(next[i]) in colors && KeyOfLine(next[i]) !in rest - {k}
              && next[i].color == colors[KeyOfLine(next[i])]
    {
      if i < |lines| {
        assert next[i] == lines[i];
      }
    }
  }

  lemma CoversStep(lines: seq<Line>, colors: map<Key, Number>, rest: set<Key>, k: Key, line: Line)
    requires Covers(lines, colors, rest) && KeyOfLine(line) == k
    ensures Covers(lines + [line], colors, rest - {k})
  {
    var next := lines + [line];
    forall x | x in colors && x !in rest - {k}
      ensures exists i :: 0 <= i < |next| && KeyOfLine(next[i]) == x
    {
      if x == k {
        assert KeyOfLine(next[|lines|]) == x;
      } else {
        var i :| 0 <= i < |lines| && KeyOfLine(lines[i]) == x;
        assert next[i] == lines[i];
      }
    }
  }

  /** The output loop over `sorted(color_data.keys())`: every key of the colour
      map exactly once, with its colour, in strictly ascending key order. */
  method SortedLines(colors: map<Key, Number>) returns (lines: seq<Line>)
    ensures |lines| == |colors|
    ensures forall i :: 0 <= i < |lines| ==>
              KeyOfLine(lines[i]) in colors && lines[i].color == colors[KeyOfLine(lines[i])]
    ensures forall k :: k in colors ==> exists i :: 0 <= i < |lines| && KeyOfLine(lines[i]) == k
    ensures forall i, j :: 0 <= i < j < |lines| ==> KeyLess(KeyOfLine(lines[i]), KeyOfLine(lines[j]))
    ensures forall i, j :: 0 <= i < j < |lines| ==> KeyOfLine(lines[i]) != KeyOfLine(lines[j])
  {
    var rest := colors.Keys;
    lines := [];
    while rest != {}
      invariant rest <= colors.Keys
      invariant |lines| + |rest| == |colors|
      invariant Faithful(lines, colors, rest)
      invariant Covers(lines, colors, rest)
      invariant Ascending(lines)
      invariant Precedes(lines, rest)
      decreases |rest|
    {
      LeastKeyExists(rest);
      var k :| IsLeast(k, rest);
      var line := Line(k.0, k.1, colors[k]);
      AscendingStep(lines, rest, k, line);
      PrecedesStep(lines, rest, k, line);
      FaithfulStep(lines, colors, rest, k);
      CoversStep(lines, colors, rest, k, line);
      lines := lines + [line];
      rest := rest - {k};
    }
    forall i, j | 0 <= i < j < |lines| ensures KeyOfLine(lines[i]) != KeyOfLine(lines[j]) {
      KeyLessIrreflexive(KeyOfLine(lines[i]));
    }
  }
}

=== FILE: particles.dfy ===
/** Particles of a 3D genome structure, as the colour script sees them. */
module Particles {

  /** One particle: the homolog it belongs to (`hom_name`), the chromosome that
      homolog is a copy of (`ref_name`, derived from `hom_name` by the particle
      store) and its base-pair locus. Positions are not modelled: every
      geometric question is answered by a collaborator passed in as a parameter. */
  datatype Particle = Particle(homName: string, refName: string, refLocus: int)

  /** The key under which a particle's colour is stored and printed. */
  type Key = (string, int)

  function KeyOf(p: Particle): Key
  {
    (p.homName, p.refLocus)
  }

  /** The key space of a structure. */
  function KeySet(ps: seq<Particle>): set<Key>
  {
    set i | 0 <= i < |ps| :: KeyOf(ps[i])
  }

  /** No two particles of the structure share a key. */
  predicate UniqueKeys(ps: seq<Particle>)
  {
    forall i, j :: 0 <= i < j < |ps| ==> KeyOf(ps[i]) != KeyOf(ps[j])
  }

  lemma UniqueKeysPrefix(ps: seq<Particle>)
    requires |ps| > 0 && UniqueKeys(ps)
    ensures UniqueKeys(ps[..|ps| - 1])
  {
    var init := ps[..|ps| - 1];
    forall a, b | 0 <= a < b < |init| ensures KeyOf(init[a]) != KeyOf(init[b]) {
      assert init[a] == ps[a] && init[b] == ps[b];
    }
  }
}

=== FILE: wrappers.dfy ===
/** Failure-compatible wrappers used throughout the model: `None` stands for the
    source's `None` return ("no colour"), `Err` for an exception that escapes. */
module Wrappers {

  datatype Option<+T> = None | Some(value: T)

  datatype Result<+T, +E> = Ok(value: T) | Err(error: E)
}
